=== FILE: README.md ===
# Font-selection state machine of the text editor

The model covers the text editor component's font-selection logic. The editor state is
`(text, fontFamily, fontWeight, isItalic)`. It runs over a read-only font catalog that maps
each family to its variant keys. A variant key is a weight such as `"400"`, optionally
followed by `"italic"`, and each key maps to a font url.

The model is written as pure functions over an immutable `EditorState` and a catalog
parameter:

- `js.dfy` (module `Js`): the JavaScript behaviour the component relies on. It covers
  `null`/`undefined`, thrown `TypeError`s, `String.prototype.includes`, truthiness of
  stored strings, `||` defaults and `Boolean.prototype.toString`.
- `objectkeys.dfy` (module `ObjectKeys`): the order in which `Object.keys` lists an
  object's keys (section 10.1.11.1 of ECMA-262). Array-index keys come first, in ascending
  numeric order. All other keys follow, in creation order.
- `catalog.dfy` (module `Catalog`): the catalog. Each family's variants are kept in
  document order. The module provides the lookups the component performs:
  `hasOwnProperty`, indexing, `Object.keys`, the non-italic filter and `${w}italic`.
- `editor.dfy` (module `Editor`): the state, its invariant `Valid`, and the handlers. The
  handlers are family change, weight change, the italic checkbox, text edit and reset.
- `persistence.dfy` (module `Persistence`): the four `localStorage` entries. It models the
  auto-save writes and the mount-time restore, with storage as an in-memory map.
- `fontload.dfy` (module `FontLoad`): the decision part of `loadFont`. It covers which
  variant key is looked up and whether a load is started.
- `session.dfy` (module `Session`): the component over its lifetime. It models mount
  (restore effect, then auto-save effects), event dispatch with React's rules, and runs
  of user actions. It also proves the session invariant: the state is valid and storage
  holds its encoding.
- `scenarios.dfy` (module `Scenarios`): worked examples on small catalogs.

Points where the code's behaviour is easy to misread:

- The weight handler does not check the weight it is given. Only the dropdown's option
  list keeps it valid (`Editor.ChangeFontWeight`, `Session.Enabled`).
- The checkbox handler sets the flag directly. It does not force `false` when no italic
  variant exists. Only the `disabled` attribute protects the invariant
  (`Editor.SetItalicValid`).
- For an unknown family, the family handler throws a `TypeError` before calling any
  setter. It is not a silent ignore. React reports the error and leaves the state as it
  was (`Session.Dispatch`).
- "First available weight" means JavaScript's `Object.keys` order, not document order.
  Array-index keys (canonical decimals up to 2^32 - 2, such as "400" but not "0400") are
  listed first, in ascending numeric order; other keys follow in creation order
  (`Catalog.FirstWeightRule`).
- Restore adopts only truthy entries, so an empty saved string keeps the default. Restore
  does not check the saved values against the catalog (`Session.RestoreDoesNotValidate`).
- `loadFont` starts a load only when the url it finds is truthy (non-empty).

## Model

| member | source | states |
|---|---|---|
| `Js.Includes` | src/TextEditor.jsx:66 | `key.includes("italic")` is true exactly when "italic" occurs at some position of the key (substring, not suffix) |
| `Js.BoolToStringParses` | src/TextEditor.jsx:37 | `isItalic.toString()` is never empty and compares `=== "true"` exactly when the flag is true |
| `ObjectKeys.OwnKeys` | src/TextEditor.jsx:65 | `Object.keys` of a variant object is a permutation of its keys; array-index keys come first, in ascending numeric order |
| `ObjectKeys.OwnKeysWithoutIndices` | src/TextEditor.jsx:65 | when no key is an array index, `Object.keys` keeps document order |
| `Catalog.Lookup` | src/TextEditor.jsx:45 | `fontData[family][key]` finds a url exactly when the family has that key, and the url is one listed for it |
| `Catalog.LookupListed` | src/TextEditor.jsx:45 | with distinct keys, the lookup returns the url listed for the key |
| `Catalog.Keys` | src/TextEditor.jsx:65 | `Object.keys(fontData[family])` lists exactly the family's own keys |
| `Catalog.NonItalic` | src/TextEditor.jsx:65-67 | the filter keeps exactly the keys without "italic", and its first element is the first such key in enumeration order |
| `Catalog.RegularWeights` | src/TextEditor.jsx:132-133 | the weight dropdown's options are exactly the family's keys that do not contain "italic" |
| `Catalog.RegularWeightsNonEmpty` | src/TextEditor.jsx:65-70 | the weight list is non-empty exactly when the family lists some key without "italic", so `availableWeights[0]` exists exactly then |
| `Catalog.ItalicKeyIsItalic` | src/TextEditor.jsx:71 | `${weight}italic` always contains "italic", so it is never offered as a weight |
| `Catalog.DigitsAreRegular` | src/TextEditor.jsx:66 | a digits-only key such as "400" always passes the non-italic filter |
| `Catalog.IndexKeysLeadEnumeration` | src/TextEditor.jsx:65-70 | if any array-index key is present, `Object.keys` starts with the smallest one, and that key heads the filtered weight list |
| `Catalog.FirstWeightIsSmallestIndex` | src/TextEditor.jsx:68-70 | a family with an array-index key falls back to its numerically smallest array-index key |
| `Catalog.FirstWeightInDocumentOrder` | src/TextEditor.jsx:68-70 | a family without array-index keys falls back to its first non-italic key in document order |
| `Catalog.FirstWeightRule` | src/TextEditor.jsx:68-70 | `availableWeights[0]` is the smallest array-index key when one exists, else the first non-italic key in document order |
| `Editor.ChangeFontFamily` | src/TextEditor.jsx:63-78 | an unknown family throws; otherwise the family is set, the text is kept, the weight is kept if it is a non-italic key of the new family and is otherwise the first one in enumeration order, and italic stays on exactly when it was on and `${newWeight}italic` exists |
| `Editor.ChangeFontWeight` | src/TextEditor.jsx:80-87 | throws only when the current family is unknown; otherwise family and text are unchanged, the weight is the given one, and italic stays on exactly when it was on and `${weight}italic` exists |
| `Editor.FamilyChangeValid` | src/TextEditor.jsx:63-78 | a family change to any catalog family yields a valid state, whatever the state before |
| `Editor.WeightChangeValid` | src/TextEditor.jsx:80-87 | a weight from the dropdown keeps a valid state valid |
| `Editor.SetItalicValid` | src/TextEditor.jsx:142-149 | the checkbox keeps a valid state valid if and only if it clears the flag or the checkbox is enabled (`${weight}italic` exists) |
| `Editor.SetTextKeepsFont` | src/TextEditor.jsx:157-159 | a text edit replaces the text only and neither creates nor breaks validity |
| `Editor.ResetRestoresInitial` | src/TextEditor.jsx:89-94 | reset yields `("Hello World", "ABeeZee", "400", false)`, the initial state, whatever came before; it is valid exactly when the catalog has ABeeZee with a "400" key |
| `Editor.FamilyChangeDropsItalic` | src/TextEditor.jsx:71-73 | switching with italic on to a family lacking the resulting weight's italic variant turns italic off without an error |
| `Editor.FamilyThenWeight` | src/TextEditor.jsx:63-87 | after a family change and then a dropdown weight change, the state is valid and italic is on only if `${weight}italic` exists |
| `Persistence.Save` | src/TextEditor.jsx:34-37 | auto-save writes the four entries with the state's encoding and leaves every other entry untouched |
| `Persistence.Restore` | src/TextEditor.jsx:14-22 | each truthy stored entry replaces its field, italic becomes `stored === "true"`, and absent or empty entries keep the current value |
| `Persistence.RestoreReflected` | src/TextEditor.jsx:14-22 | storage holding a state's encoding restores to that state when text, family and weight are non-empty |
| `Persistence.SaveRestoreRoundTrip` | src/TextEditor.jsx:19-37 | restoring what auto-save wrote gives back the saved state when text, family and weight are non-empty |
| `Persistence.EmptyTextRestoresDefault` | src/TextEditor.jsx:19 | a saved empty text comes back as "Hello World"; the other fields round-trip |
| `Persistence.RestoreEmptyStorage` | src/TextEditor.jsx:14-22 | with no stored entries, restoring keeps every field |
| `Persistence.RestoreKeepsValid` | src/TextEditor.jsx:19-22 | storage holding a valid state's encoding restores to a valid state, whatever the text (an emptied text falls back to the base text, which validity does not read) |
| `FontLoad.VariantKey` | src/TextEditor.jsx:45 | the looked-up key is `${weight}italic` when italic and `weight` otherwise |
| `FontLoad.LoadFont` | src/TextEditor.jsx:43-61 | throws for an unknown family; otherwise a load is started exactly when the variant key is listed with a non-empty url, for that url, family, weight and style |
| `FontLoad.LookupDecides` | src/TextEditor.jsx:45-47 | with distinct keys, the `if (fontUrl)` test passes exactly when the key is listed with a non-empty url |
| `FontLoad.ValidStateLoads` | src/TextEditor.jsx:40-47 | for a valid state over a catalog with non-empty urls, the effect never throws and loads the selected variant's url |
| `Session.AutoSave` | src/TextEditor.jsx:32-41 | the auto-save effect throws only for an unknown family; otherwise it writes the state's encoding and appends the load it starts |
| `Session.Dispatch` | src/TextEditor.jsx:32-41 | a throwing handler leaves the session as it was; otherwise the handler's state is committed, and when it differs from the old one storage holds its encoding and the only new load is `loadFont` for that state; the auto-save effect throws exactly when that new state's family is unknown; an unchanged state changes nothing (no effect runs) |
| `Session.Mount` | src/TextEditor.jsx:12-41 | mount throws exactly when the restored family or "ABeeZee" is missing from the catalog; otherwise the state is the restored one, storage holds its encoding, and the loads started are the restore effect's own `loadFont`, the auto-save load for the initial state, and, when the restored state differs, the auto-save load for it |
| `Session.RestoreLoadMatches` | src/TextEditor.jsx:25-29 | the restore effect's own `loadFont` call is the one the auto-save effect makes for the restored state |
| `Session.HandleKeepsValid` | src/TextEditor.jsx:63-94 | every handler run for an event the controls can deliver keeps a valid state valid |
| `Session.StepKeepsConsistent` | src/TextEditor.jsx:32-41 | every deliverable event commits its handler's state (an undeliverable one changes nothing), keeps the state valid and the storage in step with it, never throws, and only appends loads |
| `Session.RunKeepsConsistent` | src/TextEditor.jsx:32-41 | any sequence of user actions preserves the state invariant and storage consistency without an effect throwing |
| `Session.MountConsistentStore` | src/TextEditor.jsx:12-30 | mounting over a consistent session's storage resumes its state (non-empty text, family and weight) |
| `Session.ReloadRestoresSession` | src/TextEditor.jsx:12-41 | after any user actions, reloading the page restores the state the user left (non-empty text, family and weight) |
| `Session.FirstVisit` | src/TextEditor.jsx:7-41 | with empty storage, mount yields the initial state, which is consistent when the catalog has the default font |
| `Session.RestoreDoesNotValidate` | src/TextEditor.jsx:19-21 | a stored weight the family lacks is adopted as is; mount succeeds with an invalid state |
| `Session.TextEditPersists` | src/TextEditor.jsx:159 | a text edit changes only the text, is saved at once, and starts loading the current font again |
| `Session.SaveClickedChangesNothing` | src/TextEditor.jsx:174-176 | the Save button leaves the session exactly as it was |
| `Scenarios.WeightChangeScenario` | src/TextEditor.jsx:80-87 | in a family with "400", "700" and "700italic", moving from italic 700 to 400 turns italic off |
| `Scenarios.FamilyChangeScenario` | src/TextEditor.jsx:63-78 | a family listing "700" before "400" falls back to "400", and italic stays on because "400italic" exists |

## Left out

- `FontFace` construction, the asynchronous `load()`, `document.fonts.add` and
  `console.error` (src/TextEditor.jsx:48-59) are browser APIs. A started load is recorded
  as a `LoadRequest`. Its completion, its failure and the ordering of overlapping loads
  are not modelled.
- Real `localStorage` is an in-memory map. Storage exceptions (unavailable storage, quota)
  are not modelled.
- React scheduling is reduced to the rules listed in `session.dfy`: batched setters, effect
  order on mount, effects only on changed dependencies, and handler versus effect errors.
  Strict-mode double invocation of effects is not modelled.
- JSX rendering, Tailwind classes, styling and the Save button's `alert`
  (src/TextEditor.jsx:96-182) are outside the model. They appear only as the guards they
  impose: the dropdown option lists and the checkbox's `disabled` attribute
  (`Session.Enabled`).
- Render-time lookups `fontData[fontFamily]` (src/TextEditor.jsx:132, 148) also throw for
  an unknown family. In the model, the same states make `Session.Mount` throw.
- `src/App.jsx` is a layout wrapper with no logic.
- The catalog's contents are not part of this model. The catalog is an arbitrary parameter.
- Editor.ChangeFontFamily: a family with no non-italic key (`Catalog.HasRegularKey` false) is excluded by precondition.
  In JavaScript, `availableWeights[0]` would be `undefined` and would become the weight.
  `Editor.WellFormed` states the assumption for the whole catalog.
- Catalog.Lookup: properties inherited from `Object.prototype` (`"constructor"`,
  `"__proto__"`, ...) are not modelled; only own properties are. Neither are catalog
  documents with duplicate keys: for them the lookup takes the first listed url, and
  `FontLoad.LoadFont`'s exact-load clause assumes distinct keys.

=== FILE: catalog.dfy ===
/**
 The font catalog (`fontData`, the imported JSON document): for each family,
 its variant keys with the url of each variant. A variant key is a weight such
 as "400", possibly followed by "italic" ("400italic").

 The catalog is read-only; every function here is a lookup the editor
 performs on it.
 */
module Catalog {
  import opened Js
  import ObjectKeys

  type Key = string
  type Url = string

  /** One family's variants, as (key, url) pairs in document order. */
  type Variants = seq<(Key, Url)>

  /** Family name to that family's variants. */
  type FontCatalog = map<string, Variants>

  /** The keys of a family's variants, in document order. */
  function Names(v: Variants): (r: seq<Key>)
    ensures |r| == |v|
    ensures forall i :: 0 <= i < |v| ==> r[i] == v[i].0
  {
    if |v| == 0 then [] else [v[0].0] + Names(v[1..])
  }

  /** `fontData[family].hasOwnProperty(k)`. */
  predicate HasKey(v: Variants, k: Key)
  {
    k in Names(v)
  }

  /** `fontData[family][k]` for an own property: the url listed for `k`, if any. */
  function Lookup(v: Variants, k: Key): (r: Option<Url>)
    ensures r.Some? <==> HasKey(v, k)
    ensures r.Some? ==> (k, r.value) in v
  {
    if |v| == 0 then None
    else if v[0].0 == k then Some(v[0].1)
    else
      assert Names(v) == [v[0].0] + Names(v[1..]);
      Lookup(v[1..], k)
  }

  /** No key is listed twice (a JSON object's keys are distinct). */
  predicate DistinctKeys(v: Variants)
  {
    forall i, j :: 0 <= i < j < |v| ==> v[i].0 != v[j].0
  }

  /** With distinct keys, a lookup finds the url listed for the key. */
  lemma {:induction false} LookupListed(v: Variants, k: Key, url: Url)
    requires DistinctKeys(v) && (k, url) in v
    ensures Lookup(v, k) == Some(url)
  {
    if v[0] != (k, url) {
      var i :| 0 <= i < |v| && v[i] == (k, url);
      assert i > 0;
      assert v[1..][i - 1] == (k, url);
      LookupListed(v[1..], k, url);
    }
  }

  /** `Object.keys(fontData[family])`: the keys in enumeration order. */
  function Keys(v: Variants): (r: seq<Key>)
    ensures forall k :: k in r <==> HasKey(v, k)
  {
    var r := ObjectKeys.OwnKeys(Names(v));
    assert forall k :: k in r <==> k in multiset(Names(v));
    r
  }

  /** `key.includes("italic")`: the test that keeps a key out of the weight list. */
  predicate IsItalicKey(k: Key)
  {
    Includes(k, "italic")
  }

  /** `${weight}italic`: the key of a weight's italic variant. */
  function ItalicKey(w: Key): Key
  {
    w + "italic"
  }

  /** The family offers an italic variant of weight `w`. */
  predicate HasItalicVariant(v: Variants, w: Key)
  {
    HasKey(v, ItalicKey(w))
  }

  /** `i` is the position of the first non-italic key of `keys`. */
  ghost predicate IsFirstRegular(keys: seq<Key>, i: int)
  {
    && 0 <= i < |keys|
    && !IsItalicKey(keys[i])
    && forall j :: 0 <= j < i ==> IsItalicKey(keys[j])
  }

  /** `keys.filter((key) => !key.includes("italic"))`. */
  function NonItalic(keys: seq<Key>): (r: seq<Key>)
    ensures forall k :: k in r <==> k in keys && !IsItalicKey(k)
    ensures |r| > 0 ==> exists i :: IsFirstRegular(keys, i) && r[0] == keys[i]
  {
    if |keys| == 0 then []
    else if !IsItalicKey(keys[0]) then
      assert IsFirstRegular(keys, 0);
      [keys[0]] + NonItalic(keys[1..])
    else
      var rest := NonItalic(keys[1..]);
      assert keys == [keys[0]] + keys[1..];
      if |rest| > 0 then FirstRegularAfterItalic(keys, rest[0]); rest
      else rest
  }

  lemma FirstRegularAfterItalic(keys: seq<Key>, x: Key)
    requires |keys| > 0 && IsItalicKey(keys[0])
    requires exists i :: IsFirstRegular(keys[1..], i) && x == keys[1..][i]
    ensures exists i :: IsFirstRegular(keys, i) && x == keys[i]
  {
    var i :| IsFirstRegular(keys[1..], i) && x == keys[1..][i];
    assert IsFirstRegular(keys, i + 1);
  }

  /** `availableWeights` / the weight dropdown's options for a family. */
  function RegularWeights(v: Variants): (r: seq<Key>)
    ensures forall w :: w in r <==> HasKey(v, w) && !IsItalicKey(w)
  {
    NonItalic(Keys(v))
  }

  /** Some variant of the family is listed under a non-italic key. */
  predicate HasRegularKey(v: Variants)
  {
    exists i :: 0 <= i < |v| && !IsItalicKey(v[i].0)
  }

  /** The weight list is non-empty exactly when the family lists a non-italic key. */
  lemma RegularWeightsNonEmpty(v: Variants)
    ensures RegularWeights(v) != [] <==> HasRegularKey(v)
  {
    if HasRegularKey(v) {
      var i :| 0 <= i < |v| && !IsItalicKey(v[i].0);
      assert Names(v)[i] == v[i].0;
      assert v[i].0 in RegularWeights(v);
    }
    if RegularWeights(v) != [] {
      var w := RegularWeights(v)[0];
      assert w in Names(v);
      var i :| 0 <= i < |v| && Names(v)[i] == w;
    }
  }

  /** No weight is ever its own italic variant: `${w}italic` always contains "italic". */
  lemma ItalicKeyIsItalic(w: Key)
    ensures IsItalicKey(ItalicKey(w))
  {
    assert ItalicKey(w)[|w|..|w| + 6] == "italic";
    assert OccursAt(ItalicKey(w), "italic", |w|);
  }

  /** A key made of digits only, such as "400", is never taken for an italic key. */
  lemma DigitsAreRegular(k: Key)
    requires ObjectKeys.AllDigits(k)
    ensures !IsItalicKey(k)
  {
    forall i | 0 <= i && i + 6 <= |k|
      ensures !OccursAt(k, "italic", i)
    {
      assert k[i..i + 6][0] == k[i];
    }
  }

  /** In `Object.keys` order, an array-index key present anywhere means the first key is the smallest one and a weight. */
  lemma IndexKeysLeadEnumeration(keys: seq<Key>, p: int)
    requires forall i, j :: 0 <= i < j < |keys| && !ObjectKeys.IsArrayIndex(keys[i]) ==> !ObjectKeys.IsArrayIndex(keys[j])
    requires forall i, j :: 0 <= i < j < |keys| && ObjectKeys.IsArrayIndex(keys[j]) ==>
               ObjectKeys.DecimalValue(keys[i]) <= ObjectKeys.DecimalValue(keys[j])
    requires 0 <= p < |keys| && ObjectKeys.IsArrayIndex(keys[p])
    ensures ObjectKeys.IsArrayIndex(keys[0])
    ensures NonItalic(keys) != [] && NonItalic(keys)[0] == keys[0]
    ensures forall q :: 0 <= q < |keys| && ObjectKeys.IsArrayIndex(keys[q]) ==>
              ObjectKeys.DecimalValue(keys[0]) <= ObjectKeys.DecimalValue(keys[q])
  {
    assert ObjectKeys.IsArrayIndex(keys[0]);
    DigitsAreRegular(keys[0]);
    assert keys[0] in NonItalic(keys);
    var i :| IsFirstRegular(keys, i) && NonItalic(keys)[0] == keys[i];
    assert i == 0;
  }

  /** With an array-index key in the family, the first weight is the numerically smallest such key. */
  lemma FirstWeightIsSmallestIndex(v: Variants, k0: Key)
    requires HasKey(v, k0) && ObjectKeys.IsArrayIndex(k0)
    ensures RegularWeights(v) != []
    ensures ObjectKeys.IsArrayIndex(RegularWeights(v)[0])
    ensures forall k :: HasKey(v, k) && ObjectKeys.IsArrayIndex(k) ==>
              ObjectKeys.DecimalValue(RegularWeights(v)[0]) <= ObjectKeys.DecimalValue(k)
  {
    var keys := ObjectKeys.OwnKeys(Names(v));
    assert Keys(v) == keys;
    assert k0 in keys;
    var p :| 0 <= p < |keys| && keys[p] == k0;
    IndexKeysLeadEnumeration(keys, p);
    forall k | HasKey(v, k) && ObjectKeys.IsArrayIndex(k)
      ensures ObjectKeys.DecimalValue(keys[0]) <= ObjectKeys.DecimalValue(k)
    {
      assert k in keys;
      var q :| 0 <= q < |keys| && keys[q] == k;
      assert ObjectKeys.IsArrayIndex(keys[q]);
    }
  }

  /** Without array-index keys, the first weight is the first non-italic key in document order. */
  lemma FirstWeightInDocumentOrder(v: Variants)
    requires RegularWeights(v) != []
    requires forall k :: HasKey(v, k) ==> !ObjectKeys.IsArrayIndex(k)
    ensures exists i :: IsFirstRegular(Names(v), i) && RegularWeights(v)[0] == Names(v)[i]
  {
    ObjectKeys.OwnKeysWithoutIndices(Names(v));
    assert Keys(v) == Names(v);
  }

  /**
   Which weight `availableWeights[0]` is. If the family has any weight key that
   is an array index ("100" ... "900"), it is the numerically smallest of them,
   wherever the document lists it; otherwise it is the first non-italic key in
   document order.
   */
  lemma FirstWeightRule(v: Variants)
    requires RegularWeights(v) != []
    ensures (exists k :: HasKey(v, k) && ObjectKeys.IsArrayIndex(k)) ==>
              && ObjectKeys.IsArrayIndex(RegularWeights(v)[0])
              && forall k :: HasKey(v, k) && ObjectKeys.IsArrayIndex(k) ==>
                   ObjectKeys.DecimalValue(RegularWeights(v)[0]) <= ObjectKeys.DecimalValue(k)
    ensures (forall k :: HasKey(v, k) ==> !ObjectKeys.IsArrayIndex(k)) ==>
              exists i :: IsFirstRegular(Names(v), i) && RegularWeights(v)[0] == Names(v)[i]
  {
    if exists k :: HasKey(v, k) && ObjectKeys.IsArrayIndex(k) {
      var k0 :| HasKey(v, k0) && ObjectKeys.IsArrayIndex(k0);
      FirstWeightIsSmallestIndex(v, k0);
    } else {
      FirstWeightInDocumentOrder(v);
    }
  }
}

=== FILE: editor.dfy ===
/**
 The editor's state and the handlers that change it: family change, weight
 change, the italic checkbox, text edits and reset. Each handler is the pure
 function from the state before the event to the state React commits after it
 (the setters a handler calls are batched into one update).

 A handler that reads `fontData[family]` for a family missing from the
 catalog throws a TypeError before calling any setter; that outcome is
 `Throw(TypeError)`.
 */
module Editor {
  import opened Js
  import opened Catalog

  datatype EditorState = EditorState(text: string, fontFamily: string, fontWeight: Key, isItalic: bool)

  /** The initial `useState` values, which are also what reset restores. */
  const Initial := EditorState("Hello World", "ABeeZee", "400", false)

  /**
   The state invariant: the family is in the catalog, the weight is one of its
   non-italic keys, and italic is on only when that weight has an italic variant.
   */
  predicate Valid(cat: FontCatalog, s: EditorState)
  {
    && s.fontFamily in cat
    && HasKey(cat[s.fontFamily], s.fontWeight)
    && !IsItalicKey(s.fontWeight)
    && (s.isItalic ==> HasItalicVariant(cat[s.fontFamily], s.fontWeight))
  }

  /** The italic checkbox is enabled: its `disabled` attribute is false. */
  predicate ItalicAvailable(cat: FontCatalog, s: EditorState)
  {
    s.fontFamily in cat && HasItalicVariant(cat[s.fontFamily], s.fontWeight)
  }

  /** Every family lists at least one non-italic key. */
  predicate WellFormed(cat: FontCatalog)
  {
    forall f :: f in cat ==> HasRegularKey(cat[f])
  }

  /** The reset target is present: "ABeeZee" offers a regular "400". */
  predicate HasDefaultFont(cat: FontCatalog)
  {
    "ABeeZee" in cat && HasKey(cat["ABeeZee"], "400")
  }

  /**
   `handleFontFamilyChange`: switch to `family`, keep the weight if the new
   family offers it as a non-italic key and otherwise take the first one, and
   keep italic only if the resulting weight has an italic variant there.
   */
  function ChangeFontFamily(cat: FontCatalog, s: EditorState, family: string): (r: Result<EditorState>)
    requires family in cat ==> HasRegularKey(cat[family])
    ensures r.Throw? <==> family !in cat
    ensures r.Ok? ==> r.value.text == s.text && r.value.fontFamily == family
    ensures r.Ok? ==> HasKey(cat[family], r.value.fontWeight) && !IsItalicKey(r.value.fontWeight)
    ensures r.Ok? && HasKey(cat[family], s.fontWeight) && !IsItalicKey(s.fontWeight) ==>
              r.value.fontWeight == s.fontWeight
    ensures r.Ok? && !(HasKey(cat[family], s.fontWeight) && !IsItalicKey(s.fontWeight)) ==>
              exists i :: IsFirstRegular(Keys(cat[family]), i) && r.value.fontWeight == Keys(cat[family])[i]
    ensures r.Ok? ==>
              (r.value.isItalic <==> s.isItalic && HasItalicVariant(cat[family], r.value.fontWeight))
  {
    if family !in cat then Throw(TypeError)
    else
      RegularWeightsNonEmpty(cat[family]);
      var available := RegularWeights(cat[family]);
      var weight := if s.fontWeight in available then s.fontWeight else available[0];
      var italic := if HasItalicVariant(cat[family], weight) then s.isItalic else false;
      Ok(s.(fontFamily := family, fontWeight := weight, isItalic := italic))
  }

  /**
   `handleFontWeightChange`: take `weight` as given (the handler does not check
   it; the dropdown only offers the family's non-italic keys) and keep italic
   only if the new weight has an italic variant.
   */
  function ChangeFontWeight(cat: FontCatalog, s: EditorState, weight: Key): (r: Result<EditorState>)
    ensures r.Throw? <==> s.fontFamily !in cat
    ensures r.Ok? ==> r.value.text == s.text && r.value.fontFamily == s.fontFamily
    ensures r.Ok? ==> r.value.fontWeight == weight
    ensures r.Ok? ==>
              (r.value.isItalic <==> s.isItalic && HasItalicVariant(cat[s.fontFamily], weight))
  {
    if s.fontFamily !in cat then Throw(TypeError)
    else
      var italic := if HasItalicVariant(cat[s.fontFamily], weight) then s.isItalic else false;
      Ok(s.(fontWeight := weight, isItalic := italic))
  }

  /** The checkbox's `onChange`: sets the flag with no check of its own. */
  function SetItalic(s: EditorState, checked: bool): EditorState
  {
    s.(isItalic := checked)
  }

  /** The textarea's `onChange`: replaces the text. */
  function SetText(s: EditorState, text: string): EditorState
  {
    s.(text := text)
  }

  /** `handleReset`. */
  function Reset(s: EditorState): EditorState
  {
    Initial
  }

  /**
   A family change always lands in a valid state, whatever the state before:
   the only demand is that the family come from the family dropdown.
   */
  lemma FamilyChangeValid(cat: FontCatalog, s: EditorState, family: string)
    requires WellFormed(cat) && family in cat
    ensures ChangeFontFamily(cat, s, family).Ok?
    ensures Valid(cat, ChangeFontFamily(cat, s, family).value)
  {
  }

  /** A weight change offered by the weight dropdown keeps the state valid. */
  lemma WeightChangeValid(cat: FontCatalog, s: EditorState, weight: Key)
    requires Valid(cat, s) && weight in RegularWeights(cat[s.fontFamily])
    ensures ChangeFontWeight(cat, s, weight).Ok?
    ensures Valid(cat, ChangeFontWeight(cat, s, weight).value)
  {
  }

  /**
   The checkbox keeps a valid state valid exactly when it is enabled or
   being cleared; it is the `disabled` attribute, not the handler, that
   protects the invariant.
   */
  lemma SetItalicValid(cat: FontCatalog, s: EditorState, checked: bool)
    requires Valid(cat, s)
    ensures Valid(cat, SetItalic(s, checked)) <==> !checked || ItalicAvailable(cat, s)
  {
  }

  /** Text edits change nothing else and neither make nor break validity. */
  lemma SetTextKeepsFont(cat: FontCatalog, s: EditorState, text: string)
    ensures SetText(s, text).text == text
    ensures SetText(s, text).(text := s.text) == s
    ensures Valid(cat, SetText(s, text)) <==> Valid(cat, s)
  {
  }

  /** Reset yields the initial state whatever came before; that state is valid exactly when the catalog has the default font. */
  lemma ResetRestoresInitial(cat: FontCatalog, s: EditorState)
    ensures Reset(s) == EditorState("Hello World", "ABeeZee", "400", false)
    ensures Reset(s) == Initial
    ensures Valid(cat, Reset(s)) <==> HasDefaultFont(cat)
  {
    assert !IsItalicKey("400");
  }

  /** Leaving a family with italic on for a weight the new family lacks in italic turns italic off, without an error. */
  lemma FamilyChangeDropsItalic(cat: FontCatalog, s: EditorState, family: string)
    requires WellFormed(cat) && family in cat
    requires s.isItalic
    requires !HasItalicVariant(cat[family], ChangeFontFamily(cat, s, family).value.fontWeight)
    ensures ChangeFontFamily(cat, s, family).Ok?
    ensures !ChangeFontFamily(cat, s, family).value.isItalic
  {
  }

  /** After a family change and then a weight change from the dropdown, italic is on only if that variant exists. */
  lemma FamilyThenWeight(cat: FontCatalog, s: EditorState, family: string, weight: Key)
    requires WellFormed(cat) && family in cat && weight in RegularWeights(cat[family])
    ensures ChangeFontFamily(cat, s, family).Ok?
    ensures var t := ChangeFontWeight(cat, ChangeFontFamily(cat, s, family).value, weight);
            t.Ok? && Valid(cat, t.value) && t.value.fontFamily == family && t.value.fontWeight == weight &&
            (t.value.isItalic ==> HasItalicVariant(cat[family], weight))
  {
    FamilyChangeValid(cat, s, family);
    WeightChangeValid(cat, ChangeFontFamily(cat, s, family).value, weight);
  }
}

=== FILE: fontload.dfy ===
/**
 The decision half of `loadFont`: which catalog entry it looks up and whether
 it starts loading a font face. The `FontFace` construction, the asynchronous
 `load()` and the registration with `document.fonts` are outside the model; a
 started load is recorded as a `LoadRequest`.
 */
module FontLoad {
  import opened Js
  import opened Catalog
  import opened Editor

  datatype FontStyle = Normal | Italic

  /** A font face whose load `loadFont` started: family, source url, weight and style. */
  datatype LoadRequest = LoadRequest(family: string, url: Url, weight: Key, style: FontStyle)

  /** `${weight}${italic ? "italic" : ""}`: the catalog key of the requested variant. */
  function VariantKey(weight: Key, italic: bool): (k: Key)
    ensures italic ==> k == ItalicKey(weight)
    ensures !italic ==> k == weight
  {
    assert weight + "" == weight;
    weight + (if italic then "italic" else "")
  }

  /**
   `loadFont(family, weight, italic)`: throws when the family is not in the
   catalog; otherwise starts a load exactly when the variant key is listed with
   a truthy (non-empty) url.
   */
  function LoadFont(cat: FontCatalog, family: string, weight: Key, italic: bool): (r: Result<Option<LoadRequest>>)
    ensures r.Throw? <==> family !in cat
    ensures r.Ok? && DistinctKeys(cat[family]) ==>
              (r.value.Some? <==> exists url :: url != "" && (VariantKey(weight, italic), url) in cat[family])
    ensures r.Ok? && r.value.Some? ==>
              && (VariantKey(weight, italic), r.value.value.url) in cat[family]
              && r.value.value.url != ""
              && r.value.value.family == family
              && r.value.value.weight == weight
              && (r.value.value.style == Italic <==> italic)
  {
    if family !in cat then Throw(TypeError)
    else
      var url := Lookup(cat[family], VariantKey(weight, italic));
      LookupDecides(cat[family], VariantKey(weight, italic));
      if url.Some? && url.value != "" then
        Ok(Some(LoadRequest(family, url.value, weight, if italic then Italic else Normal)))
      else Ok(None)
  }

  lemma LookupDecides(v: Variants, k: Key)
    ensures DistinctKeys(v) ==>
              ((Lookup(v, k).Some? && Lookup(v, k).value != "") <==> exists url :: url != "" && (k, url) in v)
  {
    if DistinctKeys(v) && exists url :: url != "" && (k, url) in v {
      var url :| url != "" && (k, url) in v;
      LookupListed(v, k, url);
    }
  }

  /** The load the auto-save effect starts for a state. */
  function LoadFor(cat: FontCatalog, s: EditorState): Result<Option<LoadRequest>>
  {
    LoadFont(cat, s.fontFamily, s.fontWeight, s.isItalic)
  }

  /** Every family's urls are non-empty. */
  predicate NonEmptyUrls(cat: FontCatalog)
  {
    forall f, i :: f in cat && 0 <= i < |cat[f]| ==> cat[f][i].1 != ""
  }

  /**
   For a valid state over a catalog with non-empty urls, the effect never
   throws and always starts loading the selected variant: the weight's own
   entry, or its italic entry when italic is on.
   */
  lemma ValidStateLoads(cat: FontCatalog, s: EditorState)
    requires Valid(cat, s) && NonEmptyUrls(cat)
    ensures LoadFor(cat, s).Ok? && LoadFor(cat, s).value.Some?
    ensures var req := LoadFor(cat, s).value.value;
            && (s.isItalic ==> (ItalicKey(s.fontWeight), req.url) in cat[s.fontFamily])
            && (!s.isItalic ==> (s.fontWeight, req.url) in cat[s.fontFamily])
            && req.family == s.fontFamily && req.weight == s.fontWeight
            && (req.style == Italic <==> s.isItalic)
  {
    var key := VariantKey(s.fontWeight, s.isItalic);
    var url := Lookup(cat[s.fontFamily], key);
    assert url.Some?;
    var i :| 0 <= i < |cat[s.fontFamily]| && cat[s.fontFamily][i] == (key, url.value);
  }
}

=== FILE: js.dfy ===
/**
 The few pieces of JavaScript semantics the editor relies on: absent values,
 thrown errors, `String.prototype.includes`, truthiness of stored strings,
 `Boolean.prototype.toString` and the `||` default idiom.
 */
module Js {

  /** A value that may be absent (`null` / `undefined` in JavaScript). */
  datatype Option<+T> = None | Some(value: T)

  /** The only exception the editor can raise: a TypeError from using `fontData[f]` for a family `f` missing from the catalog. */
  datatype JsError = TypeError

  /** The outcome of evaluating code that may throw. */
  datatype Result<+T> = Ok(value: T) | Throw(error: JsError)

  /** `sub` occurs in `s` starting at index `i`. */
  ghost predicate OccursAt(s: string, sub: string, i: int)
  {
    0 <= i && i + |sub| <= |s| && s[i..i + |sub|] == sub
  }

  lemma OccursShift(s: string, sub: string, i: int)
    requires |s| > 0 && 0 <= i
    ensures OccursAt(s, sub, i + 1) <==> OccursAt(s[1..], sub, i)
  {
    if i + 1 + |sub| <= |s| {
      assert s[i + 1..i + 1 + |sub|] == s[1..][i..i + |sub|];
    }
  }

  lemma OccursAfterHead(s: string, sub: string)
    requires |sub| <= |s| && s[..|sub|] != sub
    ensures (exists i :: OccursAt(s, sub, i)) <==> (exists j :: OccursAt(s[1..], sub, j))
  {
    if exists i :: OccursAt(s, sub, i) {
      var i :| OccursAt(s, sub, i);
      assert s[0..|sub|] == s[..|sub|];
      assert i != 0;
      OccursShift(s, sub, i - 1);
    }
    if exists j :: OccursAt(s[1..], sub, j) {
      var j :| OccursAt(s[1..], sub, j);
      OccursShift(s, sub, j);
    }
  }

  /** `s.includes(sub)`: true exactly when `sub` occurs somewhere in `s`. */
  function Includes(s: string, sub: string): (r: bool)
    ensures r <==> exists i :: OccursAt(s, sub, i)
    decreases |s|
  {
    if |sub| > |s| then false
    else if s[..|sub|] == sub then assert OccursAt(s, sub, 0); true
    else OccursAfterHead(s, sub); Includes(s[1..], sub)
  }

  /** Whether a value read from storage is truthy: present (not `null`) and not the empty string. */
  predicate Truthy(v: Option<string>)
  {
    v.Some? && v.value != ""
  }

  /** `v || fallback` for a value read from storage. */
  function OrElse(v: Option<string>, fallback: string): (r: string)
    ensures Truthy(v) ==> r == v.value
    ensures !Truthy(v) ==> r == fallback
  {
    if Truthy(v) then v.value else fallback
  }

  /** `b.toString()`. */
  function BoolToString(b: bool): string
  {
    if b then "true" else "false"
  }

  /** `v === "true"` parses exactly the strings `toString` produces for `true`. */
  lemma BoolToStringParses(b: bool)
    ensures (BoolToString(b) == "true") == b
    ensures BoolToString(b) != ""
  {
    if !b {
      assert BoolToString(b)[0] == 'f';
    }
  }
}

=== FILE: objectkeys.dfy ===
/**
 The order in which `Object.keys` enumerates the string keys of an ordinary
 object (the OrdinaryOwnPropertyKeys algorithm, section 10.1.11.1 of
 ECMA-262): first every key that is an array index, in ascending numeric
 order, then every other key in the order its property was created.

 The font catalog is a parsed JSON document, so each family's properties are
 created in document order; the weight keys ("400", "700", ...) are array
 indices, the italic keys ("400italic", ...) are not.
 */
module ObjectKeys {

  /** The largest array index, 2^32 - 2 (section 6.1.7 of ECMA-262). */
  const MaxArrayIndex: nat := 4294967294

  predicate IsDigit(c: char)
  {
    '0' <= c <= '9'
  }

  predicate AllDigits(s: string)
  {
    forall i :: 0 <= i < |s| ==> IsDigit(s[i])
  }

  /** The decimal value of a digit string (non-digits count as 0). */
  function DecimalValue(s: string): nat
  {
    if |s| == 0 then 0
    else DecimalValue(s[..|s| - 1]) * 10 + (if IsDigit(s[|s| - 1]) then s[|s| - 1] as int - '0' as int else 0)
  }

  /** `k` is the canonical decimal form of an integer in 0 .. 2^32 - 2. */
  predicate IsArrayIndex(k: string)
  {
    && |k| > 0
    && AllDigits(k)
    && (k[0] == '0' ==> |k| == 1)
    && DecimalValue(k) <= MaxArrayIndex
  }

  ghost predicate Ascending(ks: seq<string>)
  {
    forall i, j :: 0 <= i < j < |ks| ==> DecimalValue(ks[i]) <= DecimalValue(ks[j])
  }

  /** Inserts `k` into an ascending sequence of keys. */
  function Insert(k: string, ks: seq<string>): (r: seq<string>)
    requires Ascending(ks)
    ensures Ascending(r)
    ensures multiset(r) == multiset(ks) + multiset{k}
    ensures forall x :: x in r ==> x == k || x in ks
  {
    if |ks| == 0 then [k]
    else if DecimalValue(k) <= DecimalValue(ks[0]) then [k] + ks
    else
      var rest := Insert(k, ks[1..]);
      assert ks == [ks[0]] + ks[1..];
      InsertAfterHead(k, ks, rest);
      [ks[0]] + rest
  }

  lemma InsertAfterHead(k: string, ks: seq<string>, rest: seq<string>)
    requires |ks| > 0 && Ascending(ks) && DecimalValue(ks[0]) < DecimalValue(k)
    requires Ascending(rest)
    requires forall x :: x in rest ==> x == k || x in ks[1..]
    ensures Ascending([ks[0]] + rest)
  {
    var r := [ks[0]] + rest;
    forall i, j | 0 <= i < j < |r|
      ensures DecimalValue(r[i]) <= DecimalValue(r[j])
    {
      if i == 0 {
        assert r[j] == rest[j - 1];
        assert rest[j - 1] in rest;
      } else {
        assert r[i] == rest[i - 1] && r[j] == rest[j - 1];
      }
    }
  }

  /** Sorts keys into ascending numeric order. */
  function SortByIndex(ks: seq<string>): (r: seq<string>)
    ensures Ascending(r)
    ensures multiset(r) == multiset(ks)
  {
    if |ks| == 0 then []
    else
      assert ks == [ks[0]] + ks[1..];
      Insert(ks[0], SortByIndex(ks[1..]))
  }

  /** The array-index keys of `names`, in their original order. */
  function IndexKeys(names: seq<string>): (r: seq<string>)
    ensures forall k :: k in r <==> k in names && IsArrayIndex(k)
  {
    if |names| == 0 then []
    else (if IsArrayIndex(names[0]) then [names[0]] else []) + IndexKeys(names[1..])
  }

  /** The keys of `names` that are not array indices, in their original order. */
  function OtherKeys(names: seq<string>): (r: seq<string>)
    ensures forall k :: k in r <==> k in names && !IsArrayIndex(k)
  {
    if |names| == 0 then []
    else (if IsArrayIndex(names[0]) then [] else [names[0]]) + OtherKeys(names[1..])
  }

  lemma {:induction false} SplitIsPermutation(names: seq<string>)
    ensures multiset(IndexKeys(names)) + multiset(OtherKeys(names)) == multiset(names)
  {
    if |names| > 0 {
      var h, t := names[0], names[1..];
      SplitIsPermutation(t);
      assert names == [h] + t;
      if IsArrayIndex(h) {
        assert IndexKeys(names) == [h] + IndexKeys(t);
        assert OtherKeys(names) == OtherKeys(t);
      } else {
        assert IndexKeys(names) == IndexKeys(t);
        assert OtherKeys(names) == [h] + OtherKeys(t);
      }
    }
  }

  lemma {:induction false} OtherKeysOfNoIndex(names: seq<string>)
    requires forall k :: k in names ==> !IsArrayIndex(k)
    ensures OtherKeys(names) == names
  {
    if |names| > 0 {
      assert names[1..] == names[|names| - |names[1..]|..];
      assert forall k :: k in names[1..] ==> k in names;
      OtherKeysOfNoIndex(names[1..]);
      assert names == [names[0]] + names[1..];
    }
  }

  /**
   `Object.keys` of an object whose properties were created in the order
   `names`: a permutation of `names` that lists every array index first, in
   ascending numeric order, and the remaining keys after them.
   */
  function OwnKeys(names: seq<string>): (r: seq<string>)
    ensures multiset(r) == multiset(names)
    ensures forall i, j :: 0 <= i < j < |r| && !IsArrayIndex(r[i]) ==> !IsArrayIndex(r[j])
    ensures forall i, j :: 0 <= i < j < |r| && IsArrayIndex(r[j]) ==> DecimalValue(r[i]) <= DecimalValue(r[j])
  {
    var ix := SortByIndex(IndexKeys(names));
    var other := OtherKeys(names);
    SplitIsPermutation(names);
    assert forall i :: 0 <= i < |ix| ==> IsArrayIndex(ix[i]) by {
      forall i | 0 <= i < |ix|
        ensures IsArrayIndex(ix[i])
      {
        assert ix[i] in multiset(IndexKeys(names));
      }
    }
    ix + other
  }

  /** When no key is an array index, `Object.keys` keeps creation order. */
  lemma OwnKeysWithoutIndices(names: seq<string>)
    requires forall k :: k in names ==> !IsArrayIndex(k)
    ensures OwnKeys(names) == names
  {
    OtherKeysOfNoIndex(names);
    if |IndexKeys(names)| > 0 {
      assert IndexKeys(names)[0] in IndexKeys(names);
    }
  }
}

=== FILE: persistence.dfy ===
/**
 The editor's use of `localStorage`: the auto-save effect writes four string
 entries, and the mount effect reads them back, adopting each entry that is
 truthy (present and non-empty) and keeping the current value otherwise.
 Storage is an in-memory map from entry name to string.
 */
module Persistence {
  import opened Js
  import opened Editor

  type Storage = map<string, string>

  const TextEntry := "editorText"
  const FontEntry := "editorFont"
  const WeightEntry := "editorWeight"
  const ItalicEntry := "editorItalic"

  /** `localStorage.getItem(key)`: `null` when the entry is absent. */
  function GetItem(store: Storage, key: string): Option<string>
  {
    if key in store then Some(store[key]) else None
  }

  /** The four entries hold the encoding of `s`. */
  predicate Reflects(store: Storage, s: EditorState)
  {
    && GetItem(store, TextEntry) == Some(s.text)
    && GetItem(store, FontEntry) == Some(s.fontFamily)
    && GetItem(store, WeightEntry) == Some(s.fontWeight)
    && GetItem(store, ItalicEntry) == Some(BoolToString(s.isItalic))
  }

  /** The auto-save effect: four `setItem` calls; every other entry is left alone. */
  function Save(store: Storage, s: EditorState): (r: Storage)
    ensures Reflects(r, s)
    ensures r.Keys == store.Keys + {TextEntry, FontEntry, WeightEntry, ItalicEntry}
    ensures forall k :: k in store && k !in {TextEntry, FontEntry, WeightEntry, ItalicEntry} ==> r[k] == store[k]
  {
    store[TextEntry := s.text][FontEntry := s.fontFamily][WeightEntry := s.fontWeight][ItalicEntry := BoolToString(s.isItalic)]
  }

  /**
   The mount effect's reads: each truthy entry replaces the corresponding
   field of `s`; italic becomes `savedItalic === "true"`.
   */
  function Restore(store: Storage, s: EditorState): (r: EditorState)
    ensures Truthy(GetItem(store, TextEntry)) ==> r.text == store[TextEntry]
    ensures !Truthy(GetItem(store, TextEntry)) ==> r.text == s.text
    ensures Truthy(GetItem(store, FontEntry)) ==> r.fontFamily == store[FontEntry]
    ensures !Truthy(GetItem(store, FontEntry)) ==> r.fontFamily == s.fontFamily
    ensures Truthy(GetItem(store, WeightEntry)) ==> r.fontWeight == store[WeightEntry]
    ensures !Truthy(GetItem(store, WeightEntry)) ==> r.fontWeight == s.fontWeight
    ensures Truthy(GetItem(store, ItalicEntry)) ==> (r.isItalic <==> store[ItalicEntry] == "true")
    ensures !Truthy(GetItem(store, ItalicEntry)) ==> r.isItalic == s.isItalic
  {
    var savedItalic := GetItem(store, ItalicEntry);
    EditorState(
      OrElse(GetItem(store, TextEntry), s.text),
      OrElse(GetItem(store, FontEntry), s.fontFamily),
      OrElse(GetItem(store, WeightEntry), s.fontWeight),
      if Truthy(savedItalic) then savedItalic == Some("true") else s.isItalic)
  }

  /**
   Reading back storage that reflects a state reproduces that state, whatever
   the state being restored over, provided its text, family and weight are
   non-empty (an empty string is falsy and would be skipped).
   */
  lemma RestoreReflected(store: Storage, s: EditorState, base: EditorState)
    requires Reflects(store, s)
    requires s.text != "" && s.fontFamily != "" && s.fontWeight != ""
    ensures Restore(store, base) == s
  {
    BoolToStringParses(s.isItalic);
  }

  /** The round trip: saving then restoring gives back the saved state. */
  lemma SaveRestoreRoundTrip(store: Storage, s: EditorState, base: EditorState)
    requires s.text != "" && s.fontFamily != "" && s.fontWeight != ""
    ensures Restore(Save(store, s), base) == s
  {
    RestoreReflected(Save(store, s), s, base);
  }

  /**
   The italic flag round-trips for every state, and an emptied text comes
   back as the text being restored over ("Hello World" at mount).
   */
  lemma EmptyTextRestoresDefault(store: Storage, s: EditorState)
    requires s.text == "" && s.fontFamily != "" && s.fontWeight != ""
    ensures Restore(Save(store, s), Initial) == s.(text := "Hello World")
  {
    BoolToStringParses(s.isItalic);
  }

  /** With no saved entries at all, restoring keeps every field. */
  lemma RestoreEmptyStorage(s: EditorState)
    ensures Restore(map[], s) == s
  {
  }

  /** A saved state that was valid is valid again once restored. */
  lemma RestoreKeepsValid(cat: Catalog.FontCatalog, store: Storage, s: EditorState, base: EditorState)
    requires Valid(cat, s) && Reflects(store, s)
    requires s.fontFamily != "" && s.fontWeight != ""
    ensures Valid(cat, Restore(store, base))
  {
    BoolToStringParses(s.isItalic);
  }
}

=== FILE: scenarios.dfy ===
/**
 Worked examples of the editor's rules on small catalogs.
 */
module Scenarios {
  import opened Js
  import opened Catalog
  import opened Editor
  import ObjectKeys

  /**
   The weight-change scenario: in a family with "400", "700" and "700italic",
   moving from italic 700 to 400 turns italic off.
   */
  lemma WeightChangeScenario()
    ensures var cat := map["A" := [("400", "a400.ttf"), ("700", "a700.ttf"), ("700italic", "a700i.ttf")]];
            var s := EditorState("Hello World", "A", "700", true);
            ChangeFontWeight(cat, s, "400") == Ok(s.(fontWeight := "400", isItalic := false))
  {
    var v := [("400", "a400.ttf"), ("700", "a700.ttf"), ("700italic", "a700i.ttf")];
    assert Names(v) == ["400", "700", "700italic"];
    assert ItalicKey("400") == "400italic";
    assert ItalicKey("400") !in Names(v);
  }

  /**
   Enumeration order at work: a family listing "700" before "400" still
   yields "400" when the current weight is missing, because `Object.keys` puts
   array-index keys in ascending order. Italic stays on, "400italic" existing.
   */
  lemma FamilyChangeScenario(v: Variants)
    requires v == [("700", "b700.ttf"), ("400", "b400.ttf"), ("400italic", "b400i.ttf")]
    ensures RegularWeights(v) != []
    ensures ChangeFontFamily(map["B" := v], EditorState("Hi", "A", "300", true), "B") == Ok(EditorState("Hi", "B", "400", true))
  {
    ScenarioFirstWeight(v);
    ScenarioKeys(v);
    ScenarioChange(v);
  }

  lemma ScenarioKeys(v: Variants)
    requires v == [("700", "b700.ttf"), ("400", "b400.ttf"), ("400italic", "b400i.ttf")]
    ensures !HasKey(v, "300")
    ensures HasItalicVariant(v, "400")
  {
    assert Names(v) == ["700", "400", "400italic"];
    assert ItalicKey("400") == "400italic";
  }

  lemma ScenarioChange(v: Variants)
    requires RegularWeights(v) != [] && RegularWeights(v)[0] == "400"
    requires !HasKey(v, "300") && HasItalicVariant(v, "400")
    ensures ChangeFontFamily(map["B" := v], EditorState("Hi", "A", "300", true), "B") == Ok(EditorState("Hi", "B", "400", true))
  {
    assert map["B" := v]["B"] == v;
  }

  lemma ScenarioFirstWeight(v: Variants)
    requires v == [("700", "b700.ttf"), ("400", "b400.ttf"), ("400italic", "b400i.ttf")]
    ensures RegularWeights(v) != [] && RegularWeights(v)[0] == "400"
  {
    assert Names(v) == ["700", "400", "400italic"];
    assert ObjectKeys.AllDigits("700");
    DigitsAreRegular("700");
    assert "700" in RegularWeights(v);
    Values();
    FirstWeightRule(v);
    var first := RegularWeights(v)[0];
    assert first in RegularWeights(v);
    OnlyCandidate(v, first);
  }

  lemma OnlyCandidate(v: Variants, first: Key)
    requires Names(v) == ["700", "400", "400italic"]
    requires ObjectKeys.IsArrayIndex(first) && HasKey(v, first)
    requires ObjectKeys.DecimalValue(first) <= ObjectKeys.DecimalValue("400")
    ensures first == "400"
  {
    Values();
    assert first in ["700", "400", "400italic"];
  }

  lemma Values()
    ensures ObjectKeys.IsArrayIndex("400") && ObjectKeys.DecimalValue("400") == 400
    ensures ObjectKeys.DecimalValue("700") == 700
  {
    assert "400"[..2] == "40" && "40"[..1] == "4" && "4"[..0] == "";
    assert "700"[..2] == "70" && "70"[..1] == "7" && "7"[..0] == "";
  }
}

=== FILE: session.dfy ===
/**
 The editor component over its lifetime: the mount effects, the user events
 the controls deliver, and the auto-save effect that follows every committed
 state change.

 React semantics kept here:
 - an error thrown by an event handler is reported and the state stays as it was;
 - an error thrown by an effect unmounts the component (`Throw`);
 - the auto-save effect runs after the first render and after every render
   whose state differs from the previous one;
 - on mount, the restore effect runs before the first auto-save effect, and the
   state it restores is rendered afterwards.
 */
module Session {
  import opened Js
  import opened Catalog
  import opened Editor
  import opened Persistence
  import opened FontLoad

  /** What the controls can deliver. */
  datatype Event =
    | FamilySelected(family: string)
    | WeightSelected(weight: Key)
    | ItalicToggled(checked: bool)
    | TextEdited(text: string)
    | ResetClicked
    | SaveClicked

  /** The committed state, the storage contents, and every font load started so far. */
  datatype Session = Session(state: EditorState, store: Storage, loads: seq<LoadRequest>)

  function Started(o: Option<LoadRequest>): seq<LoadRequest>
  {
    if o.Some? then [o.value] else []
  }

  /** A family the event selects lists a non-italic key, so the family handler has a weight to fall back on. */
  predicate Selectable(cat: FontCatalog, e: Event)
  {
    e.FamilySelected? && e.family in cat ==> HasRegularKey(cat[e.family])
  }

  /** The handler that runs for an event. The Save button only shows an alert. */
  function Handle(cat: FontCatalog, s: EditorState, e: Event): Result<EditorState>
    requires Selectable(cat, e)
  {
    match e
    case FamilySelected(f) => ChangeFontFamily(cat, s, f)
    case WeightSelected(w) => ChangeFontWeight(cat, s, w)
    case ItalicToggled(checked) => Ok(SetItalic(s, checked))
    case TextEdited(t) => Ok(SetText(s, t))
    case ResetClicked => Ok(Reset(s))
    case SaveClicked => Ok(s)
  }

  /**
   Whether the controls can deliver `e` in state `s`: the family dropdown lists
   the catalog's families, the weight dropdown the current family's non-italic
   keys, and the checkbox fires only when enabled, flipping its value.
   */
  predicate Enabled(cat: FontCatalog, s: EditorState, e: Event)
  {
    match e
    case FamilySelected(f) => f in cat
    case WeightSelected(w) => s.fontFamily in cat && w in RegularWeights(cat[s.fontFamily])
    case ItalicToggled(checked) => ItalicAvailable(cat, s) && checked == !s.isItalic
    case _ => true
  }

  /** The auto-save effect after rendering `s`: write the four entries, then `loadFont`. */
  function AutoSave(cat: FontCatalog, sess: Session, s: EditorState): (r: Result<Session>)
    ensures r.Throw? <==> s.fontFamily !in cat
    ensures r.Ok? ==> r.value.state == s && Reflects(r.value.store, s)
    ensures r.Ok? ==> r.value.store == Save(sess.store, s)
    ensures r.Ok? ==> r.value.loads == sess.loads + Started(LoadFor(cat, s).value)
  {
    match LoadFor(cat, s)
    case Throw(err) => Throw(err)
    case Ok(started) => Ok(Session(s, Save(sess.store, s), sess.loads + Started(started)))
  }

  /**
   One event: run its handler; if the handler throws or leaves the state as it
   was, nothing is rendered and no effect runs; otherwise the auto-save effect
   runs for the new state.
   */
  function Dispatch(cat: FontCatalog, sess: Session, e: Event): (r: Result<Session>)
    requires Selectable(cat, e)
    ensures r.Throw? ==> exists s :: Handle(cat, sess.state, e) == Ok(s) && s.fontFamily !in cat
    ensures r.Ok? && r.value.state == sess.state ==> r.value == sess
    ensures Handle(cat, sess.state, e).Throw? ==> r == Ok(sess)
    ensures var h := Handle(cat, sess.state, e);
            h.Ok? && h.value.fontFamily in cat ==>
              && r.Ok? && r.value.state == h.value
              && r.value.store == (if h.value == sess.state then sess.store else Save(sess.store, h.value))
    ensures var h := Handle(cat, sess.state, e);
            h.Ok? && h.value != sess.state && h.value.fontFamily !in cat ==> r.Throw?
    ensures var h := Handle(cat, sess.state, e);
            h.Ok? && h.value != sess.state && h.value.fontFamily in cat ==>
              r.value.loads == sess.loads + Started(LoadFor(cat, h.value).value)
    ensures var h := Handle(cat, sess.state, e); h.Ok? && h.value == sess.state ==> r == Ok(sess)
  {
    match Handle(cat, sess.state, e)
    case Throw(_) => Ok(sess)
    case Ok(s) => if s == sess.state then Ok(sess) else AutoSave(cat, sess, s)
  }

  /** What a user can do: events the controls cannot deliver never reach a handler. */
  function Step(cat: FontCatalog, sess: Session, e: Event): Result<Session>
    requires Selectable(cat, e)
  {
    if Enabled(cat, sess.state, e) then Dispatch(cat, sess, e) else Ok(sess)
  }

  /** A sequence of user actions, stopping at the first effect that throws. */
  function Run(cat: FontCatalog, sess: Session, events: seq<Event>): Result<Session>
    requires WellFormed(cat)
    decreases |events|
  {
    if |events| == 0 then Ok(sess)
    else
      match Step(cat, sess, events[0])
      case Throw(err) => Throw(err)
      case Ok(next) => Run(cat, next, events[1..])
  }

  /** The restore effect's own `loadFont(savedFont || fontFamily, savedWeight || fontWeight, savedItalic === "true")`. */
  function RestoreLoad(cat: FontCatalog, store: Storage): Result<Option<LoadRequest>>
  {
    LoadFont(
      cat,
      OrElse(GetItem(store, FontEntry), Initial.fontFamily),
      OrElse(GetItem(store, WeightEntry), Initial.fontWeight),
      GetItem(store, ItalicEntry) == Some("true"))
  }

  /**
   Mounting over the given storage: the restore effect (reads, then its own
   load), the auto-save effect for the initial render, and, when the restored
   state differs from the initial one, the auto-save effect for its render.
   */
  function Mount(cat: FontCatalog, store: Storage): (r: Result<Session>)
    ensures r.Throw? <==> Restore(store, Initial).fontFamily !in cat || Initial.fontFamily !in cat
    ensures r.Ok? ==> r.value.state == Restore(store, Initial) && Reflects(r.value.store, r.value.state)
    ensures var restored := Restore(store, Initial);
            r.Ok? ==>
              r.value.loads ==
                Started(LoadFor(cat, restored).value) + Started(LoadFor(cat, Initial).value) +
                (if restored == Initial then [] else Started(LoadFor(cat, restored).value))
  {
    var restored := Restore(store, Initial);
    assert RestoreLoad(cat, store) == LoadFor(cat, restored) by {
      RestoreLoadMatches(cat, store);
    }
    match RestoreLoad(cat, store)
    case Throw(err) => Throw(err)
    case Ok(started) =>
      match AutoSave(cat, Session(Initial, store, Started(started)), Initial)
      case Throw(err) => Throw(err)
      case Ok(first) => if restored == Initial then Ok(first) else AutoSave(cat, first, restored)
  }

  /** The restore effect loads exactly what the auto-save effect would load for the restored state. */
  lemma RestoreLoadMatches(cat: FontCatalog, store: Storage)
    ensures RestoreLoad(cat, store) == LoadFor(cat, Restore(store, Initial))
  {
  }

  /** The session invariant: the state is valid and storage holds its encoding. */
  predicate Consistent(cat: FontCatalog, sess: Session)
  {
    Valid(cat, sess.state) && Reflects(sess.store, sess.state)
  }

  /** A handler run for an event the controls can deliver leaves a valid state valid. */
  lemma HandleKeepsValid(cat: FontCatalog, s: EditorState, e: Event)
    requires WellFormed(cat) && HasDefaultFont(cat)
    requires Valid(cat, s) && Enabled(cat, s, e)
    ensures Handle(cat, s, e).Ok?
    ensures Valid(cat, Handle(cat, s, e).value)
  {
    match e
    case FamilySelected(f) => FamilyChangeValid(cat, s, f);
    case WeightSelected(w) => WeightChangeValid(cat, s, w);
    case ItalicToggled(checked) => SetItalicValid(cat, s, checked);
    case TextEdited(t) => SetTextKeepsFont(cat, s, t);
    case ResetClicked => ResetRestoresInitial(cat, s);
    case SaveClicked =>
  }

  /** Any event the controls can deliver keeps the session consistent, and no effect throws. */
  lemma StepKeepsConsistent(cat: FontCatalog, sess: Session, e: Event)
    requires WellFormed(cat) && HasDefaultFont(cat)
    requires Consistent(cat, sess)
    ensures Step(cat, sess, e).Ok?
    ensures Consistent(cat, Step(cat, sess, e).value)
    ensures sess.loads <= Step(cat, sess, e).value.loads
    ensures Step(cat, sess, e).value.state ==
              if Enabled(cat, sess.state, e) then Handle(cat, sess.state, e).value else sess.state
    ensures !Enabled(cat, sess.state, e) ==> Step(cat, sess, e) == Ok(sess)
  {
    if Enabled(cat, sess.state, e) {
      HandleKeepsValid(cat, sess.state, e);
      var s := Handle(cat, sess.state, e).value;
      if s != sess.state {
        var r := AutoSave(cat, sess, s);
        assert r.Ok?;
      }
    }
  }

  /**
   Every sequence of user actions from a consistent session ends in a
   consistent session, without an effect ever throwing, and only ever appends
   to the started loads.
   */
  lemma {:induction false} RunKeepsConsistent(cat: FontCatalog, sess: Session, events: seq<Event>)
    requires WellFormed(cat) && HasDefaultFont(cat)
    requires Consistent(cat, sess)
    ensures Run(cat, sess, events).Ok?
    ensures Consistent(cat, Run(cat, sess, events).value)
    ensures sess.loads <= Run(cat, sess, events).value.loads
    decreases |events|
  {
    if |events| > 0 {
      StepKeepsConsistent(cat, sess, events[0]);
      var next := Step(cat, sess, events[0]).value;
      RunKeepsConsistent(cat, next, events[1..]);
    }
  }

  /**
   Reloading the page after any sequence of user actions brings back the
   state the user left, provided the text, family and weight are non-empty.
   */
  lemma ReloadRestoresSession(cat: FontCatalog, sess: Session, events: seq<Event>)
    requires WellFormed(cat) && HasDefaultFont(cat)
    requires Consistent(cat, sess)
    ensures Run(cat, sess, events).Ok?
    ensures var last := Run(cat, sess, events).value;
            last.state.text != "" && last.state.fontFamily != "" && last.state.fontWeight != "" ==>
              Mount(cat, last.store).Ok? && Mount(cat, last.store).value.state == last.state
  {
    RunKeepsConsistent(cat, sess, events);
    var last := Run(cat, sess, events).value;
    if last.state.text != "" && last.state.fontFamily != "" && last.state.fontWeight != "" {
      MountConsistentStore(cat, last);
    }
  }

  /** Mounting over the storage of a consistent session resumes that session's state. */
  lemma MountConsistentStore(cat: FontCatalog, sess: Session)
    requires HasDefaultFont(cat) && Consistent(cat, sess)
    requires sess.state.text != "" && sess.state.fontFamily != "" && sess.state.fontWeight != ""
    ensures Mount(cat, sess.store).Ok?
    ensures Mount(cat, sess.store).value.state == sess.state
  {
    RestoreReflected(sess.store, sess.state, Initial);
    var m := Mount(cat, sess.store);
    assert !m.Throw?;
  }

  /** A first visit (empty storage) mounts in the initial state, consistent when the catalog has the default font. */
  lemma FirstVisit(cat: FontCatalog)
    requires HasDefaultFont(cat)
    ensures Mount(cat, map[]).Ok?
    ensures Mount(cat, map[]).value.state == Initial
    ensures Consistent(cat, Mount(cat, map[]).value)
  {
    RestoreEmptyStorage(Initial);
    ResetRestoresInitial(cat, Initial);
  }

  /**
   Restoring does not check the saved values against the catalog: a stored
   weight the family does not offer is adopted as is, and mounting succeeds
   (the restore effect just finds no variant to load).
   */
  lemma RestoreDoesNotValidate()
    ensures var cat := map["ABeeZee" := [("400", "abeezee.ttf")]];
            var m := Mount(cat, map[WeightEntry := "900"]);
            m.Ok? && m.value.state.fontWeight == "900" && !Valid(cat, m.value.state)
  {
    var cat := map["ABeeZee" := [("400", "abeezee.ttf")]];
    var store := map[WeightEntry := "900"];
    assert Restore(store, Initial) == Initial.(fontWeight := "900");
    assert Names(cat["ABeeZee"]) == ["400"];
  }

  /**
   A text edit changes only the text, is saved at once, and, because the
   auto-save effect depends on the text too, starts loading the current font again.
   */
  lemma TextEditPersists(cat: FontCatalog, sess: Session, text: string)
    requires sess.state.fontFamily in cat && text != sess.state.text
    ensures Dispatch(cat, sess, TextEdited(text)).Ok?
    ensures var next := Dispatch(cat, sess, TextEdited(text)).value;
            && next.state == sess.state.(text := text)
            && next.store == Save(sess.store, next.state)
            && next.loads == sess.loads + Started(LoadFor(cat, sess.state).value)
  {
    var s := sess.state.(text := text);
    assert Handle(cat, sess.state, TextEdited(text)) == Ok(s);
    assert s != sess.state;
    assert Dispatch(cat, sess, TextEdited(text)) == AutoSave(cat, sess, s);
    assert LoadFor(cat, s) == LoadFor(cat, sess.state);
  }

  /** The Save button only acknowledges: the session is exactly as before. */
  lemma SaveClickedChangesNothing(cat: FontCatalog, sess: Session)
    ensures Dispatch(cat, sess, SaveClicked) == Ok(sess)
  {
    assert Handle(cat, sess.state, SaveClicked) == Ok(sess.state);
  }
}
